=== FILE: README.md ===
# dexichain-crud-api in Dafny

A model of the two controllers of a small e-commerce backend: the product catalog
controller (paginated listing, lookup, create, partial update, delete) and the
authentication controller (register, login). Each request handler is a pure function from
(request, store) to a `Step`: the HTTP status, the JSON `message`, an optional payload, and
the store after the request.

The document database is `Store.Table<T>`. It is a finite map from `ObjectId` to record,
together with the collection's natural (insertion) order. A subset-type constraint keeps
the two consistent. Library calls whose code is not part of this model become parameters:

- `castId: string -> Option<ObjectId>` is Mongoose's cast of a route parameter. `None` is a
  CastError.
- `Collaborators` holds the username, email and password validators, the password hash, and
  `comparePassword`. All are uninterpreted functions. The validators live in
  `src/utils/validation`, which is not part of this model.
- `newId` and `now` are the ObjectId and the timestamp that the driver assigns to a new
  document.

Modules, one per file:

- `Wrappers`: the `Option` type.
- `Store`: the table and the store operations the controllers use (`findById`, `save`,
  `findByIdAndDelete`, `findOne`, `countDocuments`).
- `Http`: statuses, replies and `Step`.
- `Pagination`: the `parseInt(q) || d` defaults, skip, `Math.ceil` and the skip/limit window.
- `Catalog` and `CatalogProperties`: the product controller and the lemmas about it.
- `Auth` and `AuthProperties`: the auth controller and the lemmas about it.

Behaviour at the edges, as modelled:

- Pagination keeps any non-zero integer for `page` and `limit`, negative ones included.
  Only NaN and 0 fall back to 1 and 10.
- A negative skip is refused by MongoDB and so surfaces through the catch block as a 500.
  This happens exactly when `page < 1` with a positive limit, or `page > 1` with a negative
  limit.
- A negative limit returns `|limit|` documents, which is how the Node driver treats it.
- `totalPages` is the exact ceiling of `total / limit` for either sign of `limit`.
- The newest-first sort is modelled as reverse insertion order.
  `CatalogProperties.NewestFirstIsSorted` proves that this order is a valid
  `createdAt`-descending order whenever insertion order agrees with `createdAt`.
  `Sound` is the invariant that says so. Create (given a clock that has not run backwards), update and delete all preserve it.
- Saving a new document under an id that is already stored fails in the store. The model
  answers 500 for this.

## Model

| member | source | states |
|---|---|---|
| Pagination.OrDefault | src/controllers/product.controller.ts:13-14 | NaN and 0 fall back to the default. Every other integer, negative ones included, passes through. The result is never 0. |
| Pagination.Skip | src/controllers/product.controller.ts:15 | The skip is negative exactly when page < 1 with a positive limit, or page > 1 with a negative limit. |
| Pagination.NextSkip | src/controllers/product.controller.ts:15 | The next page's skip is exactly one limit further on. |
| Pagination.CeilDiv | src/controllers/product.controller.ts:29 | `Math.ceil(total/limit)` is the integer r with r-1 < total/limit <= r. Both signs of the limit are stated with multiplication. |
| Pagination.CeilDivUnique | src/controllers/product.controller.ts:29 | For a positive limit, any integer with that bracketing property equals the computed page count. |
| Pagination.Window | src/controllers/product.controller.ts:17-19 | skip/limit yields the contiguous run starting at `skip`. Its length is min(abs(limit), items remaining). A limit of 0 means no limit. |
| Store.Count | src/controllers/product.controller.ts:22 | `countDocuments` equals the number of documents in natural order. |
| Store.Find | src/controllers/product.controller.ts:45 | `findById` hits exactly the stored ids and returns the stored record. |
| Store.Insert | src/controllers/product.controller.ts:102 | `save` appends the record as the newest: its id goes to the end of the natural order and the ids before it keep their order. The count grows by one. Every other record is untouched. |
| Store.Remove | src/controllers/product.controller.ts:160 | `findByIdAndDelete` drops exactly that id. The count shrinks by one when the id was present. Other records are untouched, and the remaining ids keep their order. |
| Store.FindFirst | src/controllers/auth.controller.ts:94 | `findOne` returns a matching document that is first in natural order. It misses exactly when no stored document matches. |
| Catalog.MissingRequired | src/controllers/product.controller.ts:72-78 | A body passes the presence check only when price and stock are present and name, description and category are present and non-empty. A price of 0 and a stock of 0 count as present. |
| Catalog.NewestFirst | src/controllers/product.controller.ts:17-20 | The listing holds every stored product once, the most recently inserted first. `NewestFirstIsSorted` relates this to the createdAt sort. |
| Catalog.GetAllProducts | src/controllers/product.controller.ts:11-38 | The store is unchanged. A negative skip, and only that, gives 500 "Internal server error" with no data; otherwise 200. The items are the newest-first listing from `skip` on, with length min(abs(limit), items remaining). The metadata reports page, limit, total count and a totalPages bracketing total/limit. |
| Catalog.GetProductById | src/controllers/product.controller.ts:41-63 | Read-only. A malformed id gives 400 "Invalid product ID format", an absent id gives 404, and a stored id gives 200 with the stored record. |
| Catalog.CreateProduct | src/controllers/product.controller.ts:66-112 | The missing-field check runs before the sign checks, and price is checked before stock. Empty strings count as missing, zero numbers do not. Any 400 leaves the store unchanged. An accepted body whose new id is already stored gets 500 "Internal server error". A 201 adds exactly one record, at the end of the natural order with the other ids in their old order, carrying exactly the submitted fields. |
| Catalog.Fresh | src/controllers/product.controller.ts:95-101 | The new document holds exactly the submitted name, description, price, category and stock, the assigned id, and equal createdAt and updatedAt stamps. |
| Catalog.Merge | src/controllers/product.controller.ts:131-134 | Each supplied field replaces the stored one. Each absent field keeps its value. Id and createdAt never change. |
| Catalog.UpdateProduct | src/controllers/product.controller.ts:115-153 | A negative price, then a negative stock, win over both the malformed-id 400 and the 404. Every rejection leaves the store unchanged. A 200 replaces only that record with the merged one, keeps the order, and returns the post-update record. |
| Catalog.DeleteProduct | src/controllers/product.controller.ts:156-178 | A malformed id gives 400 and an absent id gives 404, both with the store unchanged. Otherwise the reply is 200 with the record as it was, the id is gone, and the remaining products keep their order. |
| CatalogProperties.NewestFirstIsSorted | src/controllers/product.controller.ts:20 | When insertion order agrees with createdAt, the listing is sorted by createdAt, newest first. |
| CatalogProperties.InsertKeepsChronological | src/controllers/product.controller.ts:95-102 | Saving a record stamped no earlier than the rest keeps insertion order chronological. |
| CatalogProperties.CreateKeepsSound | src/controllers/product.controller.ts:85-102 | With a clock that has not run backwards, create keeps non-negative price and stock, records keyed by their own id, and chronological order. |
| CatalogProperties.UpdateKeepsSound | src/controllers/product.controller.ts:121-134 | Update keeps the same invariant for every body of the five product fields, because a negative top-level price or stock is refused and createdAt is never rewritten. |
| CatalogProperties.RemoveKeepsSound | src/controllers/product.controller.ts:160 | Removing any id keeps the invariant, including the order of the remaining records. |
| CatalogProperties.DeleteKeepsSound | src/controllers/product.controller.ts:156-178 | Delete keeps the invariant. |
| CatalogProperties.CreateThenGet | src/controllers/product.controller.ts:95-107 | After a successful create, a lookup of the new id returns 200 with the same record, and that record's fields are exactly the submitted body. |
| CatalogProperties.NegativeNeverPersisted | src/controllers/product.controller.ts:85-129 | A negative top-level price or stock is answered 400 by both create and update and never reaches the store. |
| CatalogProperties.EmptyUpdateTouchesOnlyTimestamp | src/controllers/product.controller.ts:131-134 | An update with an empty body changes nothing but updatedAt. |
| CatalogProperties.UpdateIdempotent | src/controllers/product.controller.ts:115-153 | Repeating an update with the same body and clock gives the same reply and the same store. |
| CatalogProperties.DeleteThenGet | src/controllers/product.controller.ts:160-164 | After a delete, both a lookup and a second delete of that id answer 404. |
| CatalogProperties.MalformedIdSameEverywhere | src/controllers/product.controller.ts:55-59 | Get, update (with acceptable signs) and delete all answer a malformed id with the same 400 "Invalid product ID format". |
| CatalogProperties.ThirdPageOfTwentyFive | src/controllers/product.controller.ts:13-31 | With 25 products, page 3 at limit 10 holds the 5 oldest products. The pagination is {3, 3, 25, 10}. |
| CatalogProperties.PageIsSlice | src/controllers/product.controller.ts:15-20 | For a positive page and limit, the page is the slice of the listing that starts at its skip. |
| CatalogProperties.PagesTile | src/controllers/product.controller.ts:15-20 | Consecutive pages are adjacent slices of the listing. When createdAt values are distinct, paging neither skips nor repeats a product. |
| Auth.RegisterFieldsMissing | src/controllers/auth.controller.ts:18 | Registration passes the presence check exactly when username, email and password are all present and non-empty. |
| Auth.NewUser | src/controllers/auth.controller.ts:57 | The new user holds the submitted username and email, the hash of the submitted password, the assigned id, and equal timestamps. |
| Auth.ClaimsFor | src/controllers/auth.controller.ts:61-65 | The token claims are the user's id and email, with a lifetime of "7d". |
| Auth.Public | src/controllers/auth.controller.ts:70-75 | The `user` object of a reply holds the id, username, email and createdAt of the stored user, and no password hash. |
| Auth.SessionFor | src/controllers/auth.controller.ts:108-122 | The reply carries the claims and the public projection of one user, so the token's userId and email match the `user` object. |
| Auth.FindConflict | src/controllers/auth.controller.ts:45-47 | The `$or` lookup hits exactly when some stored user has the email or the username. |
| Auth.FindByEmail | src/controllers/auth.controller.ts:94 | The lookup hits a user with that email, and misses exactly when no user has it. |
| Auth.Register | src/controllers/auth.controller.ts:13-81 | A blank field is checked before any validator. The validators run in the order username, email, password, and the first failure sets the message. A clash gives 409. An accepted registration whose new id is already stored gets 500 "Internal server error". Every failure leaves the store unchanged. A 201 adds exactly one user, with the hashed password, at the end of the natural order that later `findOne` calls scan, and replies with claims {id, email, "7d"} and the public projection. |
| Auth.LoginFieldsMissing | src/controllers/auth.controller.ts:88 | Login passes the presence check exactly when email and password are both present and non-empty. |
| Auth.Login | src/controllers/auth.controller.ts:83-128 | The store is never modified. A blank field gives 400. An unknown email gives 401, and every 401 is the identical "Invalid email or password" reply. A 200 comes only from a user with that email whose hash accepts the password, and carries that user's claims and projection. |
| AuthProperties.InsertKeepsRegistry | src/controllers/auth.controller.ts:56-58 | Saving a user whose email and username are both free keeps emails and usernames unique. |
| AuthProperties.RegisterKeepsRegistry | src/controllers/auth.controller.ts:44-58 | Under sequential execution, register keeps the no-shared-email/username invariant. |
| AuthProperties.LoginSucceedsExactly | src/controllers/auth.controller.ts:93-105 | With unique emails, login succeeds if and only if the user with that email has a hash that accepts the password. |
| AuthProperties.LoginFailuresIndistinguishable | src/controllers/auth.controller.ts:95-104 | For every store, an unknown email and a wrong password give the same 401 reply and the same store. |
| AuthProperties.RegisterThenLogin | src/controllers/auth.controller.ts:108-122 | After a registration, logging in with the same email and password (when the hash accepts its plaintext) returns 200 with the same claims {new id, email, "7d"} and the same public projection that register returned. |
| AuthProperties.SecondRegistrationConflicts | src/controllers/auth.controller.ts:44-54 | For every store, after a successful registration, a second one that repeats its email or username gets 409 and stores nothing. Exactly one user holds that email. |
| AuthProperties.SessionHidesPassword | src/controllers/auth.controller.ts:70-75 | The session a reply carries is the same whatever the stored password hash is. |

## Left out

- Server start-up, the MongoDB connection and process handlers (`src/server.ts`,
  `src/config/db.config.ts`) are I/O with no decisions in them.
- Environment loading (`src/config/app.config.ts`) is left out. The signing secret is not
  modelled, because tokens are opaque claims. The lifetime is the constant "7d" that the
  controller hard-codes.
- Express routing and the `authenticateToken` middleware are left out. Token verification
  is not part of this model.
- `src/utils/validation` is not part of this model. `validateUsername`, `validateEmail` and
  `validatePassword` are uninterpreted, so no length or syntax rule is assumed.
- bcrypt hashing, `comparePassword` and JWT signing are uninterpreted library calls.
  `RegisterThenLogin` assumes that the hash accepts its own plaintext. That bcrypt never
  stores the plaintext, and accepts nothing else, is a library property and is not stated.
- The user and product models are not part of this model. That leaves out the schema
  validators (`runValidators`), any setters or indexes the schemas declare, and how ObjectIds
  are spelled. The pre-save hook is assumed to store `hash(password)`. Emails and usernames
  compare exactly as submitted.
- The catch-all 500 is modelled for two causes only: a negative skip, and a save under an
  already stored id. Other store failures (connectivity, validation) are not modelled.
- `parseInt` is left out. Its result arrives as `Option<int>`, with `None` for NaN.
- JavaScript numbers are left out. Price is a `real` and stock an `int`. NaN, Infinity,
  `null` and non-string body fields are not modelled.
- The race between the duplicate check and the save is left out. It is concurrency that the
  store settles, and the model is sequential.
- The `console.error` logging is left out.
- The timestamps plugin is reduced to the `now` parameter. Create stamps both timestamps with
  it, and update stamps `updatedAt` with it.
- Catalog.GetAllProducts: the listing order is reverse insertion order, not a sort on
  `createdAt`. The two agree only when insertion order is chronological, which is the
  invariant `CatalogProperties.Sound`. Ties in `createdAt` are broken by insertion order,
  whereas MongoDB leaves their order unspecified.
- Catalog.UpdateProduct: the body is modelled as the five optional product fields. The
  source hands the whole request body to `findByIdAndUpdate`, and the sign checks look only
  at the top-level `price` and `stock`. Update-operator keys (`$inc`, `$set`, `$unset`, …)
  and other extra keys are not modelled. Through such a key the program can store a negative
  price or stock, so `UpdateKeepsSound` and `NegativeNeverPersisted` hold only for bodies of
  the five fields.
- Auth.Login: without unique emails, its contract only says that the user who logged in is
  some user with that email. The model's lookup returns the first such user in natural order.
  `LoginSucceedsExactly` gives the exact condition when emails are unique.
- CatalogProperties.PagesTile: the model breaks `createdAt` ties by insertion order in every
  query. MongoDB leaves the order of ties unspecified for each query. So when products with
  equal `createdAt` straddle a page boundary, the real program may repeat or skip one.
- AuthProperties.RegisterThenLogin: tokens are modelled as the claims passed to `jwt.sign`.
  The issue time `iat` and the expiry `exp` that signing adds are not modelled. So the two
  real tokens differ unless both are issued in the same second.

=== FILE: auth.dfy ===
/**
 The auth controller: registration and login as pure functions over the user collection.
 Input validators, password hashing and comparison are library calls whose code is not part
 of this model; they arrive as uninterpreted functions in `Collaborators`.
 */
module Auth {
  import opened Wrappers
  import opened Store
  import opened Http

  datatype User = User(
    id: ObjectId,
    username: string,
    email: string,
    passwordHash: string,
    createdAt: Timestamp,
    updatedAt: Timestamp)

  /** The only user fields a reply ever exposes; the password hash has no place in it. */
  datatype PublicUser = PublicUser(id: ObjectId, username: string, email: string, createdAt: Timestamp)

  /** The payload signed into a token; signing itself is opaque. */
  datatype Claims = Claims(userId: ObjectId, email: string, expiresIn: string)

  datatype Session = Session(token: Claims, user: PublicUser)

  datatype RegisterBody = RegisterBody(username: Option<string>, email: Option<string>, password: Option<string>)

  datatype LoginBody = LoginBody(email: Option<string>, password: Option<string>)

  datatype Collaborators = Collaborators(
    validUsername: string -> bool,
    validEmail: string -> bool,
    validPassword: string -> bool,
    hash: string -> string,
    comparePassword: (string, string) -> bool)

  type Users = Table<User>

  type Outcome = Step<Users, Session>

  const TokenLifetime := "7d"

  const MsgRegisterRequired := "Username, email, and password are required"
  const MsgBadUsername := "Username must be between 3 and 30 characters"
  const MsgBadEmail := "Please enter a valid email address"
  const MsgBadPassword := "Password must be at least 6 characters long"
  const MsgTaken := "User with this email or username already exists"
  const MsgRegistered := "User registered successfully"
  const MsgLoginRequired := "Email and password are required"
  const MsgBadCredentials := "Invalid email or password"
  const MsgLoggedIn := "Login successful"

  /** The `user` object of a reply: everything but the hash and `updatedAt`. */
  function Public(u: User): (r: PublicUser)
    ensures r.id == u.id && r.username == u.username && r.email == u.email && r.createdAt == u.createdAt
  {
    PublicUser(u.id, u.username, u.email, u.createdAt)
  }

  /** `jwt.sign({userId, email}, secret, {expiresIn: '7d'})`, less the signature. */
  function ClaimsFor(u: User): (r: Claims)
    ensures r.userId == u.id && r.email == u.email && r.expiresIn == "7d"
  {
    Claims(u.id, u.email, TokenLifetime)
  }

  /** What register and login both send on success: a token for `u` and `u`'s public projection. */
  function SessionFor(u: User): (r: Session)
    ensures r.token == ClaimsFor(u) && r.user == Public(u)
    ensures r.token.userId == r.user.id && r.token.email == r.user.email
  {
    Session(ClaimsFor(u), Public(u))
  }

  /** Reference meaning of the `$or` duplicate check: some stored user has this email or this username. */
  ghost predicate Taken(users: Users, email: string, username: string) {
    exists k :: k in users.rows && (users.rows[k].email == email || users.rows[k].username == username)
  }

  /** No two users share an email or a username, and every user sits under its own id. */
  ghost predicate Registry(users: Users) {
    && (forall k :: k in users.rows ==> users.rows[k].id == k)
    && (forall a, b :: a in users.rows && b in users.rows && a != b ==>
          users.rows[a].email != users.rows[b].email && users.rows[a].username != users.rows[b].username)
  }

  /** Absent and empty fields are both missing. */
  predicate RegisterFieldsMissing(body: RegisterBody): (r: bool)
    ensures !r <==> && body.username.Some? && body.username.value != ""
                    && body.email.Some? && body.email.value != ""
                    && body.password.Some? && body.password.value != ""
  {
    Blank(body.username) || Blank(body.email) || Blank(body.password)
  }

  /** Every field present and every validator satisfied. */
  predicate AcceptableRegistration(body: RegisterBody, lib: Collaborators) {
    && !RegisterFieldsMissing(body)
    && lib.validUsername(body.username.value)
    && lib.validEmail(body.email.value)
    && lib.validPassword(body.password.value)
  }

  /** `User.findOne({$or: [{email}, {username}]})`. */
  function FindConflict(users: Users, email: string, username: string): (r: Option<ObjectId>)
    ensures r.Some? <==> Taken(users, email, username)
  {
    FindFirst(users, (u: User) => u.email == email || u.username == username)
  }

  /** `User.findOne({email})`. */
  function FindByEmail(users: Users, email: string): (r: Option<ObjectId>)
    ensures r.Some? ==> r.value in users.rows && users.rows[r.value].email == email
    ensures r.None? <==> forall k :: k in users.rows ==> users.rows[k].email != email
  {
    FindFirst(users, (u: User) => u.email == email)
  }

  /** The document `new User({...}).save()` stores; the model's pre-save hook stores the hash. */
  function NewUser(body: RegisterBody, lib: Collaborators, id: ObjectId, now: Timestamp): (u: User)
    requires !RegisterFieldsMissing(body)
    ensures u.id == id && u.createdAt == now && u.updatedAt == now
    ensures Some(u.username) == body.username && Some(u.email) == body.email
    ensures u.passwordHash == lib.hash(body.password.value)
  {
    User(id, body.username.value, body.email.value, lib.hash(body.password.value), now, now)
  }

  /**
   POST /auth/register. Presence first, then the validators in the order username, email,
   password, then the duplicate check; only then is the user saved. `newId` and `now` are
   what the driver assigns; saving under a taken id fails in the store (500).
   */
  function Register(users: Users, body: RegisterBody, lib: Collaborators, newId: ObjectId, now: Timestamp): (r: Outcome)
    ensures RegisterFieldsMissing(body) ==> r.reply == Reply(StatusBadRequest, MsgRegisterRequired, None)
    ensures !RegisterFieldsMissing(body) && !lib.validUsername(body.username.value) ==>
      r.reply == Reply(StatusBadRequest, MsgBadUsername, None)
    ensures !RegisterFieldsMissing(body) && lib.validUsername(body.username.value)
            && !lib.validEmail(body.email.value) ==>
      r.reply == Reply(StatusBadRequest, MsgBadEmail, None)
    ensures !RegisterFieldsMissing(body) && lib.validUsername(body.username.value)
            && lib.validEmail(body.email.value) && !lib.validPassword(body.password.value) ==>
      r.reply == Reply(StatusBadRequest, MsgBadPassword, None)
    ensures r.reply.status == StatusBadRequest <==> !AcceptableRegistration(body, lib)
    ensures r.reply.status == StatusConflict <==>
      AcceptableRegistration(body, lib) && Taken(users, body.email.value, body.username.value)
    ensures r.reply.status == StatusConflict ==> r.reply.message == MsgTaken
    ensures r.reply.status == StatusCreated <==>
      && AcceptableRegistration(body, lib)
      && !Taken(users, body.email.value, body.username.value)
      && newId !in users.rows
    ensures AcceptableRegistration(body, lib) && !Taken(users, body.email.value, body.username.value)
            && newId in users.rows ==>
      r.reply == Reply(StatusInternalError, MsgInternal, None)
    ensures r.reply.status != StatusCreated ==> r.store == users && r.reply.data.None?
    ensures r.reply.status == StatusCreated ==>
      var u := NewUser(body, lib, newId, now);
      && r.reply == Reply(StatusCreated, MsgRegistered, Some(SessionFor(u)))
      && r.store.rows == users.rows[newId := u]
      && r.store.order == users.order + [newId]
      && Count(r.store) == Count(users) + 1
  {
    if RegisterFieldsMissing(body) then Refuse(StatusBadRequest, MsgRegisterRequired, users)
    else
      var username, email, password := body.username.value, body.email.value, body.password.value;
      if !lib.validUsername(username) then Refuse(StatusBadRequest, MsgBadUsername, users)
      else if !lib.validEmail(email) then Refuse(StatusBadRequest, MsgBadEmail, users)
      else if !lib.validPassword(password) then Refuse(StatusBadRequest, MsgBadPassword, users)
      else if FindConflict(users, email, username).Some? then Refuse(StatusConflict, MsgTaken, users)
      else if newId in users.rows then Refuse(StatusInternalError, MsgInternal, users)
      else
        var u := NewUser(body, lib, newId, now);
        Step(Reply(StatusCreated, MsgRegistered, Some(SessionFor(u))), Insert(users, newId, u))
  }

  /** Absent and empty fields are both missing. */
  predicate LoginFieldsMissing(body: LoginBody): (r: bool)
    ensures !r <==> && body.email.Some? && body.email.value != ""
                    && body.password.Some? && body.password.value != ""
  {
    Blank(body.email) || Blank(body.password)
  }

  /**
   POST /auth/login. An unknown email and a wrong password produce the very same reply.
   The collection is only read.
   */
  function Login(users: Users, body: LoginBody, lib: Collaborators): (r: Outcome)
    ensures r.store == users
    ensures r.reply.status in {StatusOk, StatusBadRequest, StatusUnauthorized}
    ensures r.reply.status == StatusBadRequest <==> LoginFieldsMissing(body)
    ensures r.reply.status == StatusBadRequest ==> r.reply == Reply(StatusBadRequest, MsgLoginRequired, None)
    ensures r.reply.status == StatusUnauthorized ==> r.reply == Reply(StatusUnauthorized, MsgBadCredentials, None)
    ensures !LoginFieldsMissing(body) && (forall k :: k in users.rows ==> users.rows[k].email != body.email.value) ==>
      r.reply.status == StatusUnauthorized
    ensures r.reply.status == StatusOk ==>
      exists k :: k in users.rows
        && users.rows[k].email == body.email.value
        && lib.comparePassword(body.password.value, users.rows[k].passwordHash)
        && r.reply == Reply(StatusOk, MsgLoggedIn, Some(SessionFor(users.rows[k])))
  {
    if LoginFieldsMissing(body) then Refuse(StatusBadRequest, MsgLoginRequired, users)
    else
      var email, password := body.email.value, body.password.value;
      match FindByEmail(users, email)
      case None => Refuse(StatusUnauthorized, MsgBadCredentials, users)
      case Some(k) =>
        var u := users.rows[k];
        if !lib.comparePassword(password, u.passwordHash) then Refuse(StatusUnauthorized, MsgBadCredentials, users)
        else Step(Reply(StatusOk, MsgLoggedIn, Some(SessionFor(u))), users)
  }
}

=== FILE: auth_properties.dfy ===
/** Properties of registration and login that relate several requests or hold across all of them. */
module AuthProperties {
  import opened Wrappers
  import opened Store
  import opened Http
  import opened Auth

  lemma DistinctAfterInsert(users: Users, u: User, a: ObjectId, b: ObjectId)
    requires Registry(users) && u.id !in users.rows && !Taken(users, u.email, u.username)
    requires a in users.rows[u.id := u] && b in users.rows[u.id := u] && a != b
    ensures users.rows[u.id := u][a].email != users.rows[u.id := u][b].email
    ensures users.rows[u.id := u][a].username != users.rows[u.id := u][b].username
  {
  }

  /** Storing a user whose email and username are both free keeps the registry unique. */
  lemma InsertKeepsRegistry(users: Users, u: User)
    requires Registry(users) && u.id !in users.rows && !Taken(users, u.email, u.username)
    ensures Registry(Insert(users, u.id, u))
  {
    var t := Insert(users, u.id, u);
    assert t.rows == users.rows[u.id := u];
    forall a, b | a in t.rows && b in t.rows && a != b
      ensures t.rows[a].email != t.rows[b].email && t.rows[a].username != t.rows[b].username
    {
      DistinctAfterInsert(users, u, a, b);
    }
  }

  /** Under sequential execution registration keeps emails and usernames unique. */
  lemma RegisterKeepsRegistry(users: Users, body: RegisterBody, lib: Collaborators, newId: ObjectId, now: Timestamp)
    requires Registry(users)
    ensures Registry(Register(users, body, lib, newId, now).store)
  {
    if AcceptableRegistration(body, lib) && !Taken(users, body.email.value, body.username.value) && newId !in users.rows {
      InsertKeepsRegistry(users, NewUser(body, lib, newId, now));
    }
  }

  /** With emails unique, login succeeds exactly for the stored email whose hash accepts the password. */
  lemma LoginSucceedsExactly(users: Users, body: LoginBody, lib: Collaborators)
    requires Registry(users) && !LoginFieldsMissing(body)
    ensures Login(users, body, lib).reply.status == StatusOk <==>
      exists k :: k in users.rows && users.rows[k].email == body.email.value
        && lib.comparePassword(body.password.value, users.rows[k].passwordHash)
  {
    var email := body.email.value;
    var r := Login(users, body, lib);
    if k :| k in users.rows && users.rows[k].email == email && lib.comparePassword(body.password.value, users.rows[k].passwordHash) {
      var found := FindByEmail(users, email);
      assert found.Some?;
      assert found.value == k;
    }
  }

  /**
   An unknown email and a known email with the wrong password are answered identically, so
   a reply never reveals which of the two was wrong.
   */
  lemma LoginFailuresIndistinguishable(
    users: Users, unknown: LoginBody, wrong: LoginBody, lib: Collaborators)
    requires !LoginFieldsMissing(unknown) && !LoginFieldsMissing(wrong)
    requires forall k :: k in users.rows ==> users.rows[k].email != unknown.email.value
    requires forall k :: k in users.rows && users.rows[k].email == wrong.email.value ==>
      !lib.comparePassword(wrong.password.value, users.rows[k].passwordHash)
    ensures Login(users, unknown, lib) == Login(users, wrong, lib)
    ensures Login(users, wrong, lib).reply == Reply(StatusUnauthorized, MsgBadCredentials, None)
  {
  }

  /**
   Whoever registers can log in with the same email and password (given that the password
   hash accepts its own plaintext), and login signs the same claims `{userId, email}` with a
   7-day lifetime and returns the same public projection as register did.
   */
  lemma RegisterThenLogin(users: Users, body: RegisterBody, lib: Collaborators, newId: ObjectId, now: Timestamp)
    requires Register(users, body, lib, newId, now).reply.status == StatusCreated
    requires lib.comparePassword(body.password.value, lib.hash(body.password.value))
    ensures
      var reg := Register(users, body, lib, newId, now);
      var log := Login(reg.store, LoginBody(body.email, body.password), lib);
      && log.reply.status == StatusOk
      && log.reply.data == reg.reply.data
      && log.reply.data.value.token == Claims(newId, body.email.value, TokenLifetime)
  {
    var reg := Register(users, body, lib, newId, now);
    var u := NewUser(body, lib, newId, now);
    var t := reg.store;
    var found := FindByEmail(t, u.email);
    assert t.rows[newId] == u;
    assert found.Some?;
  }

  /**
   A second registration that repeats an email or a username is refused with 409 and stores
   nothing, so exactly one user holds that email afterwards.
   */
  lemma SecondRegistrationConflicts(
    users: Users, first: RegisterBody, second: RegisterBody, lib: Collaborators,
    id1: ObjectId, id2: ObjectId, t1: Timestamp, t2: Timestamp)
    requires Register(users, first, lib, id1, t1).reply.status == StatusCreated
    requires AcceptableRegistration(second, lib)
    requires second.email == first.email || second.username == first.username
    ensures
      var after := Register(users, first, lib, id1, t1).store;
      var again := Register(after, second, lib, id2, t2);
      && again.reply == Reply(StatusConflict, MsgTaken, None)
      && again.store == after
      && (set k | k in again.store.rows && again.store.rows[k].email == first.email.value) == {id1}
  {
    var after := Register(users, first, lib, id1, t1).store;
    var u := NewUser(first, lib, id1, t1);
    assert after.rows == users.rows[id1 := u];
    assert after.rows[id1].email == second.email.value || after.rows[id1].username == second.username.value;
    assert Taken(after, second.email.value, second.username.value);
    // The first 201 means no stored user had that email, so the new user is its only holder.
    assert !Taken(users, first.email.value, first.username.value);
    OnlyHolder(users, after, id1, u);
  }

  /** A user saved under a fresh id with an email nobody else had is that email's only holder. */
  lemma OnlyHolder(users: Users, after: Users, id: ObjectId, u: User)
    requires after.rows == users.rows[id := u]
    requires forall k :: k in users.rows ==> users.rows[k].email != u.email
    ensures (set k | k in after.rows && after.rows[k].email == u.email) == {id}
  {
    var holders := set k | k in after.rows && after.rows[k].email == u.email;
    assert id in holders;
  }

  /** The session a reply carries is blind to the stored password hash. */
  lemma SessionHidesPassword(u: User, otherHash: string)
    ensures SessionFor(u) == SessionFor(u.(passwordHash := otherHash))
  {
  }
}

=== FILE: catalog.dfy ===
/**
 The product controller: listing with pagination, lookup, creation, partial update and
 deletion, each a pure function from (request, catalog) to (reply, catalog).
 */
module Catalog {
  import opened Wrappers
  import opened Store
  import opened Http
  import opened Pagination

  datatype Product = Product(
    id: ObjectId,
    name: string,
    description: string,
    price: real,
    category: string,
    stock: int,
    createdAt: Timestamp,
    updatedAt: Timestamp)

  /** A request body for create or update; any field may be absent. */
  datatype ProductFields = ProductFields(
    name: Option<string>,
    description: Option<string>,
    price: Option<real>,
    category: Option<string>,
    stock: Option<int>)

  datatype PageInfo = PageInfo(currentPage: int, totalPages: int, totalItems: nat, itemsPerPage: int)

  datatype Data = Item(product: Product) | Listing(products: seq<Product>, pagination: PageInfo)

  type Catalog = Table<Product>

  type Outcome = Step<Catalog, Data>

  /** Turns a route parameter into an ObjectId; `None` is Mongoose's CastError. */
  type IdCast = string -> Option<ObjectId>

  const MsgListed := "Products retrieved successfully"
  const MsgFound := "Product retrieved successfully"
  const MsgNotFound := "Product not found"
  const MsgBadId := "Invalid product ID format"
  const MsgRequired := "Name, description, price, category, and stock are required"
  const MsgNegativePrice := "Price cannot be negative"
  const MsgNegativeStock := "Stock cannot be negative"
  const MsgCreated := "Product created successfully"
  const MsgUpdated := "Product updated successfully"
  const MsgDeleted := "Product deleted successfully"

  /** Strings count as missing when absent or empty; numbers only when absent, so 0 is accepted. */
  predicate MissingRequired(body: ProductFields): (r: bool)
    ensures !r <==> && body.name.Some? && body.name.value != ""
                    && body.description.Some? && body.description.value != ""
                    && body.category.Some? && body.category.value != ""
                    && body.price.Some? && body.stock.Some?
    ensures (&& body.price == Some(0.0) && body.stock == Some(0)
             && !Blank(body.name) && !Blank(body.description) && !Blank(body.category)) ==> !r
  {
    Blank(body.name) || Blank(body.description) || body.price.None? || Blank(body.category) || body.stock.None?
  }

  predicate NegativePrice(body: ProductFields) {
    body.price.Some? && body.price.value < 0.0
  }

  predicate NegativeStock(body: ProductFields) {
    body.stock.Some? && body.stock.value < 0
  }

  /** `Product.find().sort({createdAt: -1})`: the catalog, most recently inserted first. */
  function NewestFirst(c: Catalog): (r: seq<Product>)
    ensures |r| == Count(c)
    ensures forall i :: 0 <= i < |r| ==> r[i] == Rows(c)[|r| - 1 - i]
  {
    var rows := Rows(c);
    seq(|rows|, i requires 0 <= i < |rows| => rows[|rows| - 1 - i])
  }

  /**
   GET /products. The page is the window of the newest-first listing that starts at
   `(page - 1) * limit`; the store refuses a negative skip, which surfaces as a 500.
   */
  function GetAllProducts(c: Catalog, pageQuery: Option<int>, limitQuery: Option<int>): (r: Outcome)
    ensures r.store == c
    ensures
      var page := OrDefault(pageQuery, DefaultPage);
      var limit := OrDefault(limitQuery, DefaultLimit);
      var skip := Skip(page, limit);
      && (r.reply.status == StatusInternalError <==> (page < 1 && limit > 0) || (page > 1 && limit < 0))
      && (skip < 0 ==> r.reply == Reply(StatusInternalError, MsgInternal, None))
      && (skip >= 0 ==>
            && r.reply.status == StatusOk
            && r.reply.message == MsgListed
            && r.reply.data.Some? && r.reply.data.value.Listing?
            && var items := r.reply.data.value.products;
            && |items| == Min(Abs(limit), Remaining(Count(c), skip))
            && (forall i :: 0 <= i < |items| ==> items[i] == NewestFirst(c)[skip + i])
            && r.reply.data.value.pagination.currentPage == page
            && r.reply.data.value.pagination.itemsPerPage == limit
            && r.reply.data.value.pagination.totalItems == Count(c)
            && var pages := r.reply.data.value.pagination.totalPages;
            && (limit > 0 ==> (pages - 1) * limit < Count(c) <= pages * limit)
            && (limit < 0 ==> pages * limit <= Count(c) < (pages - 1) * limit))
  {
    var page := OrDefault(pageQuery, DefaultPage);
    var limit := OrDefault(limitQuery, DefaultLimit);
    var skip := Skip(page, limit);
    if skip < 0 then
      Refuse(StatusInternalError, MsgInternal, c)
    else
      var total := Count(c);
      var info := PageInfo(page, CeilDiv(total, limit), total, limit);
      Step(Reply(StatusOk, MsgListed, Some(Listing(Window(NewestFirst(c), skip, limit), info))), c)
  }

  /** GET /products/:id. */
  function GetProductById(c: Catalog, idParam: string, castId: IdCast): (r: Outcome)
    ensures r.store == c
    ensures castId(idParam).None? ==> r.reply == Reply(StatusBadRequest, MsgBadId, None)
    ensures castId(idParam).Some? && castId(idParam).value !in c.rows ==>
      r.reply == Reply(StatusNotFound, MsgNotFound, None)
    ensures castId(idParam).Some? && castId(idParam).value in c.rows ==>
      r.reply == Reply(StatusOk, MsgFound, Some(Item(c.rows[castId(idParam).value])))
  {
    match castId(idParam)
    case None => Refuse(StatusBadRequest, MsgBadId, c)
    case Some(id) =>
      match Find(c, id)
      case None => Refuse(StatusNotFound, MsgNotFound, c)
      case Some(p) => Step(Reply(StatusOk, MsgFound, Some(Item(p))), c)
  }

  /** The record `save()` stores for an accepted body. */
  function Fresh(body: ProductFields, id: ObjectId, now: Timestamp): (p: Product)
    requires !MissingRequired(body)
    ensures p.id == id && p.createdAt == now && p.updatedAt == now
    ensures Some(p.name) == body.name && Some(p.description) == body.description
            && Some(p.price) == body.price && Some(p.category) == body.category
            && Some(p.stock) == body.stock
  {
    Product(id, body.name.value, body.description.value, body.price.value,
            body.category.value, body.stock.value, now, now)
  }

  /**
   POST /products. Presence is checked before any sign, price before stock. `newId` and
   `now` are the ObjectId and timestamp the driver assigns; saving under an id that is
   already taken fails in the store (500).
   */
  function CreateProduct(c: Catalog, body: ProductFields, newId: ObjectId, now: Timestamp): (r: Outcome)
    ensures MissingRequired(body) ==> r.reply == Reply(StatusBadRequest, MsgRequired, None)
    ensures !MissingRequired(body) && NegativePrice(body) ==>
      r.reply == Reply(StatusBadRequest, MsgNegativePrice, None)
    ensures !MissingRequired(body) && !NegativePrice(body) && NegativeStock(body) ==>
      r.reply == Reply(StatusBadRequest, MsgNegativeStock, None)
    ensures r.reply.status == StatusBadRequest <==>
      MissingRequired(body) || NegativePrice(body) || NegativeStock(body)
    ensures r.reply.status == StatusCreated <==>
      !MissingRequired(body) && !NegativePrice(body) && !NegativeStock(body) && newId !in c.rows
    ensures !MissingRequired(body) && !NegativePrice(body) && !NegativeStock(body) && newId in c.rows ==>
      r.reply == Reply(StatusInternalError, MsgInternal, None)
    ensures r.reply.status != StatusCreated ==> r.store == c
    ensures r.reply.status == StatusCreated ==>
      && r.reply.message == MsgCreated
      && r.reply.data.Some? && r.reply.data.value.Item?
      && var p := r.reply.data.value.product;
      && Rows(r.store) == Rows(c) + [p]
      && r.store.rows == c.rows[newId := p]
      && r.store.order == c.order + [newId]
      && p.id == newId && p.createdAt == now && p.updatedAt == now
      && Some(p.name) == body.name && Some(p.description) == body.description
      && Some(p.price) == body.price && Some(p.category) == body.category
      && Some(p.stock) == body.stock
  {
    if MissingRequired(body) then Refuse(StatusBadRequest, MsgRequired, c)
    else if body.price.value < 0.0 then Refuse(StatusBadRequest, MsgNegativePrice, c)
    else if body.stock.value < 0 then Refuse(StatusBadRequest, MsgNegativeStock, c)
    else if newId in c.rows then Refuse(StatusInternalError, MsgInternal, c)
    else
      var p := Fresh(body, newId, now);
      Step(Reply(StatusCreated, MsgCreated, Some(Item(p))), Insert(c, newId, p))
  }

  /**
   The `$set` that `findByIdAndUpdate` applies: supplied fields replace stored ones,
   absent ones keep their value, and the timestamps plugin stamps `updatedAt`.
   */
  function Merge(p: Product, patch: ProductFields, now: Timestamp): (q: Product)
    ensures q.id == p.id && q.createdAt == p.createdAt && q.updatedAt == now
    ensures patch.name.Some? ==> q.name == patch.name.value
    ensures patch.name.None? ==> q.name == p.name
    ensures patch.description.Some? ==> q.description == patch.description.value
    ensures patch.description.None? ==> q.description == p.description
    ensures patch.price.Some? ==> q.price == patch.price.value
    ensures patch.price.None? ==> q.price == p.price
    ensures patch.category.Some? ==> q.category == patch.category.value
    ensures patch.category.None? ==> q.category == p.category
    ensures patch.stock.Some? ==> q.stock == patch.stock.value
    ensures patch.stock.None? ==> q.stock == p.stock
  {
    p.(name := patch.name.GetOr(p.name),
       description := patch.description.GetOr(p.description),
       price := patch.price.GetOr(p.price),
       category := patch.category.GetOr(p.category),
       stock := patch.stock.GetOr(p.stock),
       updatedAt := now)
  }

  /**
   PUT /products/:id. The sign checks on the supplied price and stock run before the id is
   even cast, so they win over both the CastError 400 and the 404.
   */
  function UpdateProduct(c: Catalog, idParam: string, patch: ProductFields, castId: IdCast, now: Timestamp): (r: Outcome)
    ensures NegativePrice(patch) ==> r.reply == Reply(StatusBadRequest, MsgNegativePrice, None)
    ensures !NegativePrice(patch) && NegativeStock(patch) ==>
      r.reply == Reply(StatusBadRequest, MsgNegativeStock, None)
    ensures !NegativePrice(patch) && !NegativeStock(patch) && castId(idParam).None? ==>
      r.reply == Reply(StatusBadRequest, MsgBadId, None)
    ensures !NegativePrice(patch) && !NegativeStock(patch) && castId(idParam).Some?
            && castId(idParam).value !in c.rows ==>
      r.reply == Reply(StatusNotFound, MsgNotFound, None)
    ensures r.reply.status == StatusOk <==>
      !NegativePrice(patch) && !NegativeStock(patch) && castId(idParam).Some? && castId(idParam).value in c.rows
    ensures r.reply.status != StatusOk ==> r.store == c
    ensures r.reply.status == StatusOk ==>
      var id := castId(idParam).value;
      && r.reply.message == MsgUpdated
      && r.store.order == c.order
      && r.store.rows == c.rows[id := Merge(c.rows[id], patch, now)]
      && r.reply.data == Some(Item(r.store.rows[id]))
  {
    if NegativePrice(patch) then Refuse(StatusBadRequest, MsgNegativePrice, c)
    else if NegativeStock(patch) then Refuse(StatusBadRequest, MsgNegativeStock, c)
    else
      match castId(idParam)
      case None => Refuse(StatusBadRequest, MsgBadId, c)
      case Some(id) =>
        if id !in c.rows then Refuse(StatusNotFound, MsgNotFound, c)
        else
          var q := Merge(c.rows[id], patch, now);
          var updated: Catalog := Collection(c.rows[id := q], c.order);
          Step(Reply(StatusOk, MsgUpdated, Some(Item(q))), updated)
  }

  /** DELETE /products/:id. The reply carries the record as it was before removal. */
  function DeleteProduct(c: Catalog, idParam: string, castId: IdCast): (r: Outcome)
    ensures castId(idParam).None? ==> r == Refuse(StatusBadRequest, MsgBadId, c)
    ensures castId(idParam).Some? && castId(idParam).value !in c.rows ==>
      r == Refuse(StatusNotFound, MsgNotFound, c)
    ensures castId(idParam).Some? && castId(idParam).value in c.rows ==>
      var id := castId(idParam).value;
      && r.reply == Reply(StatusOk, MsgDeleted, Some(Item(c.rows[id])))
      && id !in r.store.rows
      && r.store == Remove(c, id)
      && r.store.rows == c.rows - {id}
      && r.store.order == Without(c.order, id)
      && Count(r.store) == Count(c) - 1
  {
    match castId(idParam)
    case None => Refuse(StatusBadRequest, MsgBadId, c)
    case Some(id) =>
      match Find(c, id)
      case None => Refuse(StatusNotFound, MsgNotFound, c)
      case Some(p) => Step(Reply(StatusOk, MsgDeleted, Some(Item(p))), Remove(c, id))
  }
}

=== FILE: catalog_properties.dfy ===
/** Properties of the product controller that relate several requests or hold across all of them. */
module CatalogProperties {
  import opened Wrappers
  import opened Store
  import opened Http
  import opened Pagination
  import opened Catalog

  /** Every record sits under its own id and has a non-negative price and stock. */
  ghost predicate WellPriced(c: Catalog) {
    forall k :: k in c.rows ==> c.rows[k].id == k && c.rows[k].price >= 0.0 && c.rows[k].stock >= 0
  }

  /** Insertion order agrees with `createdAt`. */
  ghost predicate Chronological(c: Catalog) {
    forall i, j :: 0 <= i < j < |c.order| ==> c.rows[c.order[i]].createdAt <= c.rows[c.order[j]].createdAt
  }

  /**
   What the catalog keeps true between requests: every record sits under its own id, has a
   non-negative price and stock, and insertion order agrees with `createdAt`.
   */
  ghost predicate Sound(c: Catalog) {
    WellPriced(c) && Chronological(c)
  }

  /** The clock has not run backwards: nothing stored was created after `now`. */
  ghost predicate NotBefore(c: Catalog, now: Timestamp) {
    forall k :: k in c.rows ==> c.rows[k].createdAt <= now
  }

  /** The products a listing reply carries; empty for any other reply. */
  function Listed(r: Outcome): seq<Product> {
    if r.reply.data.Some? && r.reply.data.value.Listing? then r.reply.data.value.products else []
  }

  /** In a chronological catalog the listing is ordered by `createdAt`, newest first. */
  lemma NewestFirstIsSorted(c: Catalog)
    requires Chronological(c)
    ensures forall i, j :: 0 <= i < j < |NewestFirst(c)| ==> NewestFirst(c)[i].createdAt >= NewestFirst(c)[j].createdAt
  {
    var s := NewestFirst(c);
    var rows := Rows(c);
    var n := |c.order|;
    forall i, j | 0 <= i < j < |s| ensures s[i].createdAt >= s[j].createdAt {
      assert s[i] == rows[n - 1 - i] == c.rows[c.order[n - 1 - i]];
      assert s[j] == rows[n - 1 - j] == c.rows[c.order[n - 1 - j]];
    }
  }

  /** Appending a record stamped no earlier than everything stored keeps insertion order chronological. */
  lemma InsertKeepsChronological(c: Catalog, p: Product)
    requires Chronological(c) && NotBefore(c, p.createdAt)
    requires p.id !in c.rows
    ensures Chronological(Insert(c, p.id, p))
  {
    var t := Insert(c, p.id, p);
    var o := c.order + [p.id];
    assert t.order == o;
    forall i, j | 0 <= i < j < |o|
      ensures t.rows[o[i]].createdAt <= t.rows[o[j]].createdAt
    {
      assert o[i] == c.order[i];
      assert t.rows[o[i]] == c.rows[o[i]];
      if j < |c.order| {
        assert o[j] == c.order[j];
        assert t.rows[o[j]] == c.rows[o[j]];
      } else {
        assert o[j] == p.id;
      }
    }
  }

  lemma CreateKeepsSound(c: Catalog, body: ProductFields, newId: ObjectId, now: Timestamp)
    requires Sound(c) && NotBefore(c, now)
    ensures Sound(CreateProduct(c, body, newId, now).store)
  {
    if !MissingRequired(body) && !NegativePrice(body) && !NegativeStock(body) && newId !in c.rows {
      var p := Fresh(body, newId, now);
      InsertKeepsChronological(c, p);
      assert WellPriced(Insert(c, newId, p));
    }
  }

  lemma UpdateKeepsSound(c: Catalog, idParam: string, patch: ProductFields, castId: IdCast, now: Timestamp)
    requires Sound(c)
    ensures Sound(UpdateProduct(c, idParam, patch, castId, now).store)
  {
    var r := UpdateProduct(c, idParam, patch, castId, now);
    if r.reply.status == StatusOk {
      var t := r.store;
      var id := castId(idParam).value;
      assert t.rows == c.rows[id := Merge(c.rows[id], patch, now)];
      forall k | k in t.rows ensures t.rows[k].createdAt == c.rows[k].createdAt {
      }
    }
  }

  /** Removing any id keeps the catalog sound. */
  lemma RemoveKeepsSound(c: Catalog, id: ObjectId)
    requires Sound(c)
    ensures Sound(Remove(c, id))
  {
    var t := Remove(c, id);
    var before := (a, b) => a in c.rows && b in c.rows ==> c.rows[a].createdAt <= c.rows[b].createdAt;
    assert Pairwise(c.order, before);
    WithoutKeepsPairs(c.order, id, before);
    forall i, j | 0 <= i < j < |t.order|
      ensures t.rows[t.order[i]].createdAt <= t.rows[t.order[j]].createdAt
    {
      assert before(t.order[i], t.order[j]);
    }
  }

  lemma DeleteKeepsSound(c: Catalog, idParam: string, castId: IdCast)
    requires Sound(c)
    ensures Sound(DeleteProduct(c, idParam, castId).store)
  {
    if castId(idParam).Some? {
      RemoveKeepsSound(c, castId(idParam).value);
    }
  }

  /** A product read back after a successful create carries exactly the submitted fields. */
  lemma CreateThenGet(c: Catalog, body: ProductFields, newId: ObjectId, now: Timestamp, idParam: string, castId: IdCast)
    requires CreateProduct(c, body, newId, now).reply.status == StatusCreated
    requires castId(idParam) == Some(newId)
    ensures
      var got := GetProductById(CreateProduct(c, body, newId, now).store, idParam, castId);
      && got.reply.status == StatusOk
      && got.reply.data == CreateProduct(c, body, newId, now).reply.data
      && var p := got.reply.data.value.product;
      && body == ProductFields(Some(p.name), Some(p.description), Some(p.price), Some(p.category), Some(p.stock))
  {
  }

  /** A negative price or stock never reaches the store, whether by create or by update. */
  lemma NegativeNeverPersisted(c: Catalog, body: ProductFields, newId: ObjectId, idParam: string, castId: IdCast, now: Timestamp)
    requires NegativePrice(body) || NegativeStock(body)
    ensures CreateProduct(c, body, newId, now).store == c
    ensures UpdateProduct(c, idParam, body, castId, now).store == c
    ensures CreateProduct(c, body, newId, now).reply.status == StatusBadRequest
    ensures UpdateProduct(c, idParam, body, castId, now).reply.status == StatusBadRequest
  {
  }

  /** An update with an empty body changes nothing but `updatedAt`. */
  lemma EmptyUpdateTouchesOnlyTimestamp(c: Catalog, idParam: string, castId: IdCast, now: Timestamp)
    requires castId(idParam).Some? && castId(idParam).value in c.rows
    ensures
      var id := castId(idParam).value;
      var r := UpdateProduct(c, idParam, ProductFields(None, None, None, None, None), castId, now);
      && r.reply.status == StatusOk
      && r.store.rows == c.rows[id := c.rows[id].(updatedAt := now)]
  {
  }

  /** Repeating an update with the same body and clock changes nothing further. */
  lemma UpdateIdempotent(c: Catalog, idParam: string, patch: ProductFields, castId: IdCast, now: Timestamp)
    ensures
      var once := UpdateProduct(c, idParam, patch, castId, now);
      var twice := UpdateProduct(once.store, idParam, patch, castId, now);
      && twice.store == once.store
      && twice.reply == once.reply
  {
  }

  /** After a delete the id is gone for good: a lookup and a second delete both answer 404. */
  lemma DeleteThenGet(c: Catalog, idParam: string, castId: IdCast)
    requires castId(idParam).Some?
    ensures
      var after := DeleteProduct(c, idParam, castId).store;
      && GetProductById(after, idParam, castId).reply.status == StatusNotFound
      && DeleteProduct(after, idParam, castId).reply.status == StatusNotFound
  {
  }

  /** A malformed id is reported the same way by lookup, update and delete. */
  lemma MalformedIdSameEverywhere(c: Catalog, idParam: string, patch: ProductFields, castId: IdCast, now: Timestamp)
    requires castId(idParam).None?
    requires !NegativePrice(patch) && !NegativeStock(patch)
    ensures GetProductById(c, idParam, castId).reply == Reply(StatusBadRequest, MsgBadId, None)
    ensures UpdateProduct(c, idParam, patch, castId, now).reply == Reply(StatusBadRequest, MsgBadId, None)
    ensures DeleteProduct(c, idParam, castId).reply == Reply(StatusBadRequest, MsgBadId, None)
  {
  }

  /** Page 3 of 25 products at 10 per page holds the five oldest products, and there are 3 pages. */
  lemma {:induction false} ThirdPageOfTwentyFive(c: Catalog)
    requires Count(c) == 25
    ensures
      var r := GetAllProducts(c, Some(3), Some(10));
      && r.reply.status == StatusOk
      && |r.reply.data.value.products| == 5
      && r.reply.data.value.products == NewestFirst(c)[20..]
      && r.reply.data.value.pagination == PageInfo(3, 3, 25, 10)
  {
    var r := GetAllProducts(c, Some(3), Some(10));
    var items := r.reply.data.value.products;
    assert |items| == 5;
    assert r.reply.data.value.pagination.totalPages == 3 by {
      CeilDivUnique(25, 10, 3);
    }
    assert items == NewestFirst(c)[20..];
  }

  /** With a positive page and limit, a page is the slice of the listing that starts at its skip. */
  lemma PageIsSlice(c: Catalog, page: int, limit: int)
    requires page >= 1 && limit >= 1
    ensures
      var skip := Skip(page, limit);
      var r := GetAllProducts(c, Some(page), Some(limit));
      && r.reply.status == StatusOk
      && Listed(r) == NewestFirst(c)[Min(skip, Count(c))..Min(skip + limit, Count(c))]
  {
  }

  /** Consecutive pages are adjacent slices of the listing, so paging visits each product of the listing once. */
  lemma {:induction false} PagesTile(c: Catalog, page: int, limit: int)
    requires page >= 1 && limit >= 1
    ensures
      var skip := Skip(page, limit);
      var here := Listed(GetAllProducts(c, Some(page), Some(limit)));
      var next := Listed(GetAllProducts(c, Some(page + 1), Some(limit)));
      here + next == NewestFirst(c)[Min(skip, Count(c))..Min(skip + 2 * limit, Count(c))]
  {
    var n := Count(c);
    var all := NewestFirst(c);
    var skip := Skip(page, limit);
    NextSkip(page, limit);
    PageIsSlice(c, page, limit);
    PageIsSlice(c, page + 1, limit);
    var lo, mid, hi := Min(skip, n), Min(skip + limit, n), Min(skip + 2 * limit, n);
    var here := Listed(GetAllProducts(c, Some(page), Some(limit)));
    var next := Listed(GetAllProducts(c, Some(page + 1), Some(limit)));
    assert here == all[lo..mid];
    assert next == all[mid..hi];
    SliceSplit(all, lo, mid, hi);
  }

  lemma SliceSplit<T>(s: seq<T>, lo: nat, mid: nat, hi: nat)
    requires lo <= mid <= hi <= |s|
    ensures s[lo..hi] == s[lo..mid] + s[mid..hi]
  {
  }
}

=== FILE: http.dfy ===
/** What a controller hands back: an HTTP status, the JSON `message`, an optional payload, and the store afterwards. */
module Http {
  import opened Wrappers

  type Status = nat

  const StatusOk: Status := 200
  const StatusCreated: Status := 201
  const StatusBadRequest: Status := 400
  const StatusUnauthorized: Status := 401
  const StatusNotFound: Status := 404
  const StatusConflict: Status := 409
  const StatusInternalError: Status := 500

  const MsgInternal := "Internal server error"

  datatype Reply<D> = Reply(status: Status, message: string, data: Option<D>)

  /** One handled request: the reply sent and the state of the store once it has been sent. */
  datatype Step<S, D> = Step(reply: Reply<D>, store: S)

  /** A reply without payload that leaves the store as it was. */
  function Refuse<S, D>(status: Status, message: string, store: S): Step<S, D> {
    Step(Reply(status, message, None), store)
  }

  /** JavaScript falsiness of a string body field: absent (`undefined`) or the empty string. */
  predicate Blank(field: Option<string>) {
    field.None? || field.value == ""
  }
}

=== FILE: pagination.dfy ===
/** The arithmetic of `GET /products?page=&limit=`. */
module Pagination {
  import opened Wrappers

  const DefaultPage: int := 1
  const DefaultLimit: int := 10

  function Abs(x: int): nat {
    if x < 0 then -x else x
  }

  function Min(a: int, b: int): int {
    if a <= b then a else b
  }

  /**
   `parseInt(q) || fallback`: `parsed` is what `parseInt` produced, `None` standing for NaN.
   NaN and 0 are falsy and give way to the fallback; every other integer, negative ones
   included, is kept.
   */
  function OrDefault(parsed: Option<int>, fallback: int): (r: int)
    ensures parsed.Some? && parsed.value != 0 ==> r == parsed.value
    ensures parsed.None? || parsed.value == 0 ==> r == fallback
    ensures fallback != 0 ==> r != 0
  {
    if parsed.Some? && parsed.value != 0 then parsed.value else fallback
  }

  /**
   `Math.ceil(total / limit)`: the least integer at or above the exact quotient, for a limit of
   either sign. (With a negative limit and no items JavaScript yields -0, which serialises as 0.)
   */
  function CeilDiv(total: nat, limit: int): (r: int)
    requires limit != 0
    ensures limit > 0 ==> (r - 1) * limit < total <= r * limit
    ensures limit < 0 ==> r * limit <= total < (r - 1) * limit
  {
    if limit > 0 then
      var r := (total + limit - 1) / limit;
      PositiveCeiling(total, limit, r);
      r
    else
      var q := total / -limit;
      NegativeCeiling(total, -limit, q);
      -q
  }

  lemma PositiveCeiling(total: nat, limit: int, r: int)
    requires limit > 0 && r == (total + limit - 1) / limit
    ensures (r - 1) * limit < total <= r * limit
  {
    var m := (total + limit - 1) % limit;
    assert total + limit - 1 == r * limit + m;
    assert (r - 1) * limit == r * limit - limit;
  }

  lemma NegativeCeiling(total: nat, n: int, q: int)
    requires n > 0 && q == total / n
    ensures (-q) * (-n) <= total < (-q - 1) * (-n)
  {
    var m := total % n;
    assert total == q * n + m;
    assert (-q) * (-n) == q * n;
    assert (-q - 1) * (-n) == q * n + n;
  }

  /** The ceiling is the only integer with the bracketing property of `CeilDiv`. */
  lemma {:induction false} CeilDivUnique(total: nat, limit: int, k: int)
    requires limit > 0 && (k - 1) * limit < total <= k * limit
    ensures k == CeilDiv(total, limit)
  {
    var r := CeilDiv(total, limit);
    if k < r {
      assert k * limit <= (r - 1) * limit by { MultiplyMonotone(k, r - 1, limit); }
      assert false;
    } else if r < k {
      assert r * limit <= (k - 1) * limit by { MultiplyMonotone(r, k - 1, limit); }
      assert false;
    }
  }

  lemma MultiplyMonotone(a: int, b: int, c: int)
    requires a <= b && c > 0
    ensures a * c <= b * c
  {
    assert b * c - a * c == (b - a) * c;
  }

  /**
   The number of documents passed over to reach `page`. It is negative exactly when page and
   limit lie on opposite sides of 1 and 0 respectively.
   */
  function Skip(page: int, limit: int): (r: int)
    ensures r < 0 <==> (page < 1 && limit > 0) || (page > 1 && limit < 0)
  {
    SkipSign(page, limit);
    (page - 1) * limit
  }

  lemma SkipSign(page: int, limit: int)
    ensures (page - 1) * limit < 0 <==> (page < 1 && limit > 0) || (page > 1 && limit < 0)
  {
    if page < 1 && limit > 0 {
      MultiplyMonotone(page - 1, -1, limit);
    } else if page > 1 && limit < 0 {
      MultiplyMonotone(1, page - 1, -limit);
      assert (page - 1) * limit == -((page - 1) * -limit);
    } else if page >= 1 && limit > 0 {
      MultiplyMonotone(0, page - 1, limit);
    } else if limit != 0 {
      assert page <= 1 && limit < 0;
      MultiplyMonotone(page - 1, 0, -limit);
      assert (page - 1) * limit == -((page - 1) * -limit);
    }
  }

  /** The next page starts exactly one limit further on. */
  lemma NextSkip(page: int, limit: int)
    ensures Skip(page + 1, limit) == Skip(page, limit) + limit
  {
    assert (page + 1 - 1) * limit == (page - 1) * limit + limit;
  }

  /** How many of `size` items lie at or after position `skip`. */
  function Remaining(size: nat, skip: nat): nat {
    if skip < size then size - skip else 0
  }

  /**
   `.skip(skip).limit(limit)` applied to the sorted result `s`. A limit of 0 means no limit;
   a negative limit returns `|limit|` documents in a single batch, as the driver does.
   */
  function Window<T>(s: seq<T>, skip: nat, limit: int): (r: seq<T>)
    ensures limit != 0 ==> |r| == Min(Abs(limit), Remaining(|s|, skip))
    ensures limit == 0 ==> |r| == Remaining(|s|, skip)
    ensures forall i :: 0 <= i < |r| ==> skip + i < |s| && r[i] == s[skip + i]
  {
    var from := Min(skip, |s|);
    var to := if limit == 0 then |s| else Min(from + Abs(limit), |s|);
    s[from..to]
  }
}

=== FILE: store.dfy ===
/**
 The document store, reduced to what the controllers observe of it: a finite map from
 ObjectId to record, together with the natural (insertion) order of the collection.
 */
module Store {
  import opened Wrappers

  /** The identity the store assigns to every document. */
  type ObjectId = nat

  /** A point of the store's clock, as used for `createdAt` and `updatedAt`. */
  type Timestamp = int

  datatype Collection<T> = Collection(rows: map<ObjectId, T>, order: seq<ObjectId>)

  ghost predicate Distinct(s: seq<ObjectId>) {
    forall i, j :: 0 <= i < j < |s| ==> s[i] != s[j]
  }

  /** The order lists every stored id exactly once, and nothing else. */
  ghost predicate Consistent<T>(c: Collection<T>) {
    && Distinct(c.order)
    && (forall i :: 0 <= i < |c.order| ==> c.order[i] in c.rows)
    && (forall k :: k in c.rows ==> k in c.order)
  }

  type Table<T> = c: Collection<T> | Consistent(c) witness Collection(map[], [])

  /** The documents in natural order, oldest insertion first. */
  function Rows<T>(t: Table<T>): (r: seq<T>)
    ensures |r| == |t.order|
  {
    seq(|t.order|, i requires 0 <= i < |t.order| => t.rows[t.order[i]])
  }

  lemma DistinctTail(s: seq<ObjectId>)
    requires Distinct(s) && s != []
    ensures Distinct(s[1..]) && s[0] !in s[1..]
  {
    var tail := s[1..];
    forall i, j | 0 <= i < j < |tail| ensures tail[i] != tail[j] {
      assert tail[i] == s[i + 1] && tail[j] == s[j + 1];
    }
    forall k | 0 <= k < |tail| ensures tail[k] != s[0] {
      assert tail[k] == s[k + 1];
    }
  }

  lemma DistinctCons(a: ObjectId, s: seq<ObjectId>)
    requires Distinct(s) && a !in s
    ensures Distinct([a] + s)
  {
    var r := [a] + s;
    forall i, j | 0 <= i < j < |r| ensures r[i] != r[j] {
      assert r[j] == s[j - 1];
      if i > 0 {
        assert r[i] == s[i - 1];
      }
    }
  }

  lemma ConsKeepsDistinct(s: seq<ObjectId>, w: seq<ObjectId>)
    requires s != []
    requires forall y :: y in w ==> y in s[1..]
    requires Distinct(s[1..]) ==> Distinct(w)
    ensures Distinct(s) ==> Distinct([s[0]] + w)
  {
    if Distinct(s) {
      DistinctTail(s);
      DistinctCons(s[0], w);
    }
  }

  /** The ids that occur in `s`. */
  function Ids(s: seq<ObjectId>): set<ObjectId> {
    set x | x in s
  }

  lemma {:induction false} DistinctCardinality(s: seq<ObjectId>)
    requires Distinct(s)
    ensures |Ids(s)| == |s|
  {
    if s != [] {
      var tail := s[1..];
      DistinctTail(s);
      DistinctCardinality(tail);
      assert Ids(s) == Ids(tail) + {s[0]};
    }
  }

  /** `countDocuments()`: the number of stored documents, which is also the length of the order. */
  function Count<T>(t: Table<T>): (n: nat)
    ensures n == |t.order| == |Rows(t)|
  {
    DistinctCardinality(t.order);
    assert t.rows.Keys == Ids(t.order);
    |t.rows|
  }

  /** `findById`: the document stored under `id`, if any. */
  function Find<T>(t: Table<T>, id: ObjectId): (r: Option<T>)
    ensures r.Some? <==> id in t.order
    ensures r.Some? ==> r.value == t.rows[id]
  {
    if id in t.rows then Some(t.rows[id]) else None
  }

  /** `save()` of a new document: it is stored and becomes the newest in natural order. */
  function Insert<T>(t: Table<T>, id: ObjectId, v: T): (r: Table<T>)
    requires id !in t.rows
    ensures Rows(r) == Rows(t) + [v]
    ensures r.order == t.order + [id]
    ensures Count(r) == Count(t) + 1
    ensures r.rows.Keys == t.rows.Keys + {id}
    ensures r.rows[id] == v
    ensures forall k :: k in t.rows ==> r.rows[k] == t.rows[k]
  {
    var r := Collection(t.rows[id := v], t.order + [id]);
    assert Consistent(r);
    r
  }

  /** `x`'s occurrences dropped from `s`, keeping the order of the rest. */
  function Without(s: seq<ObjectId>, x: ObjectId): (r: seq<ObjectId>)
    ensures forall y :: y in r <==> y in s && y != x
    ensures Distinct(s) ==> Distinct(r)
    ensures Distinct(s) && x in s ==> |r| == |s| - 1
    ensures x !in s ==> r == s
  {
    if s == [] then []
    else if s[0] == x then Without(s[1..], x)
    else
      assert s == [s[0]] + s[1..];
      var w := Without(s[1..], x);
      ConsKeepsDistinct(s, w);
      [s[0]] + w
  }

  /** `before` holds of every earlier/later pair of `s`. */
  ghost predicate Pairwise(s: seq<ObjectId>, before: (ObjectId, ObjectId) -> bool) {
    forall i, j :: 0 <= i < j < |s| ==> before(s[i], s[j])
  }

  lemma PairwiseTail(s: seq<ObjectId>, before: (ObjectId, ObjectId) -> bool)
    requires s != [] && Pairwise(s, before)
    ensures Pairwise(s[1..], before)
    ensures forall y :: y in s[1..] ==> before(s[0], y)
  {
    var tail := s[1..];
    forall i, j | 0 <= i < j < |tail| ensures before(tail[i], tail[j]) {
      assert tail[i] == s[i + 1] && tail[j] == s[j + 1];
    }
    forall y | y in tail ensures before(s[0], y) {
      var k :| 0 <= k < |tail| && tail[k] == y;
      assert s[k + 1] == y;
    }
  }

  lemma PairwiseCons(a: ObjectId, w: seq<ObjectId>, before: (ObjectId, ObjectId) -> bool)
    requires Pairwise(w, before)
    requires forall y :: y in w ==> before(a, y)
    ensures Pairwise([a] + w, before)
  {
    var r := [a] + w;
    forall i, j | 0 <= i < j < |r| ensures before(r[i], r[j]) {
      assert r[j] == w[j - 1];
      if i > 0 {
        assert r[i] == w[i - 1];
      }
    }
  }

  /** A relation that holds of every earlier/later pair of `s` still holds after dropping `x`. */
  lemma {:induction false} WithoutKeepsPairs(s: seq<ObjectId>, x: ObjectId, before: (ObjectId, ObjectId) -> bool)
    requires Pairwise(s, before)
    ensures Pairwise(Without(s, x), before)
  {
    if s != [] {
      PairwiseTail(s, before);
      WithoutKeepsPairs(s[1..], x, before);
      if s[0] != x {
        PairwiseCons(s[0], Without(s[1..], x), before);
      }
    }
  }

  lemma RemoveConsistent<T>(t: Table<T>, id: ObjectId)
    ensures Consistent(Collection(t.rows - {id}, Without(t.order, id)))
  {
    var order := Without(t.order, id);
    var rows := t.rows - {id};
    forall i | 0 <= i < |order| ensures order[i] in rows {
      assert order[i] in order;
    }
  }

  /** `findByIdAndDelete` on the store side: the document and its place in the order are gone. */
  function Remove<T>(t: Table<T>, id: ObjectId): (r: Table<T>)
    ensures r.rows.Keys == t.rows.Keys - {id}
    ensures forall k :: k in r.rows ==> r.rows[k] == t.rows[k]
    ensures id in t.rows ==> Count(r) == Count(t) - 1
    ensures id !in t.rows ==> r == t
    ensures r.order == Without(t.order, id)
  {
    var r := Collection(t.rows - {id}, Without(t.order, id));
    RemoveConsistent(t, id);
    r
  }

  function FindFrom<T>(t: Table<T>, p: T -> bool, from: nat): (r: Option<ObjectId>)
    requires from <= |t.order|
    ensures r.Some? ==>
      exists i :: from <= i < |t.order| && t.order[i] == r.value && p(t.rows[r.value])
        && forall j :: from <= j < i ==> !p(t.rows[t.order[j]])
    ensures r.None? ==> forall i :: from <= i < |t.order| ==> !p(t.rows[t.order[i]])
    decreases |t.order| - from
  {
    if from == |t.order| then None
    else if p(t.rows[t.order[from]]) then Some(t.order[from])
    else FindFrom(t, p, from + 1)
  }

  /**
   `findOne(filter)`: the first document in natural order that satisfies `p`. It misses exactly
   when no stored document satisfies `p`.
   */
  function FindFirst<T>(t: Table<T>, p: T -> bool): (r: Option<ObjectId>)
    ensures r.Some? ==> r.value in t.rows && p(t.rows[r.value])
    ensures r.Some? ==>
      exists i :: 0 <= i < |t.order| && t.order[i] == r.value
        && forall j :: 0 <= j < i ==> !p(t.rows[t.order[j]])
    ensures r.None? <==> forall k :: k in t.rows ==> !p(t.rows[k])
  {
    FindFrom(t, p, 0)
  }
}

=== FILE: wrappers.dfy ===
/** Option, used for request fields that may be absent and for lookups that may miss. */
module Wrappers {

  datatype Option<+T> = None | Some(value: T) {

    /** The carried value, or `default` when there is none. */
    function GetOr(default: T): T {
      match this
      case Some(v) => v
      case None => default
    }
  }
}
